=== FILE: README.md ===
# User and article administration console — a Dafny model

This project models the decision-making core of a small user- and article-administration
console (an Express backend over a `users` table, and a React front end). Everything is
pure: immutable datatypes and functions, with I/O replaced by parameters.

- **Article list** (`ArticleContext`): the reducer over the newest-first list of articles
  (`added`, `changed`, `deleted`, `set`, and an unknown action as an error), the empty
  initial list, and the provider's loading flag around the initial fetch.
- **Registration form** (`RegisterForm`): the four independent checks of `validateForm`,
  each with its own error message, and the guard that sends a register request only for a
  valid form. The e-mail regular expression `^[^\s@]+@[^\s@]+\.[^\s@]+$` is modelled
  literally, as a split into three runs, and proved equal to a direct shape check.
  `username.length` counts UTF-16 code units, and `\s` is ECMAScript's whitespace set.
- **Users table** (`UserModel`): the User row, the permissions bag with its all-false
  default, the auto-increment id, and the unique e-mail index. The table is a map from
  primary key to row, plus the next id and an `online` flag. When `online` is false,
  every storage call fails.
- **User endpoints** (`UserController`): list, get, create, update and delete. Each takes
  the table and the request and returns the status, the body and the new table. It
  models the 400/404/201/500 branches, the `x || old.x` partial-update rule, and the hard
  delete. An admin-created password is stored unhashed, as its column holds it.
- **Register endpoint** (`RegisterController`): refuses a taken name with 400. Otherwise
  it inserts one row with `hash(password)` and a generated e-mail, and answers with
  `sign({userId, name})` and an `{id, name, email}` summary. `hash` and `sign` are
  arbitrary function parameters. The generated address is a parameter too; its format is
  modelled separately by `GenerateEmail`.
- **User dialog** (`UserManagement`): `formatPermissions`, the dialog's open, close,
  edit-name and toggle transitions, and the save decision (no request, PUT or POST).
- **End to end** (`EndToEnd`): what the dialog and the registration form cause when their
  requests reach the handlers. One consequence: the dialog's create body carries only a
  name and permissions, so the create endpoint always answers it with 400.

`Wrappers` (Option, Result), `JsText` (JavaScript truthiness, whitespace, UTF-16 length,
integer rendering) and `Http` (status codes, the register body) are support modules.

Some behaviour of the code that the model reproduces as written:
- registration always stores a generated e-mail and ignores the one in the request;
- an administrator-created password is stored unhashed, while registration hashes it;
- the form's username and password lengths are counted in UTF-16 code units, as `String.prototype.length` counts them;
- every string column is `VARCHAR(255)` in PostgreSQL: a longer value whose excess is all spaces is cut to 255 characters and stored, and any other longer value makes the insert or save fail with 500;
- the registration name check compares the name as sent, while the insert stores it cut, so a name padded past 255 characters with spaces can duplicate an existing name.

## Model

| member | source | states |
|---|---|---|
| ArticleContext.Reduce | frontend/src/contexts/articleContext.jsx:8-31 | an action yields an error exactly when its type is unknown, with the message "Unknown action: " + type |
| ArticleContext.Replace | frontend/src/contexts/articleContext.jsx:16-19 | `changed` keeps the length; each position holds the new article if its id matched, else the old entry |
| ArticleContext.Remove | frontend/src/contexts/articleContext.jsx:21-22 | `deleted` leaves no entry with the id; every other article keeps its multiplicity |
| ArticleContext.AddedIncompleteIsIgnored | frontend/src/contexts/articleContext.jsx:10-13 | an added article with a missing or empty title or content leaves the list unchanged |
| ArticleContext.AddedPrepends | frontend/src/contexts/articleContext.jsx:14 | a complete added article becomes the head; the tail is the old list; the length grows by one |
| ArticleContext.ChangedReplacesMatching | frontend/src/contexts/articleContext.jsx:16-19 | `changed` replaces exactly the entries with the article's id, in place, and leaves all others |
| ArticleContext.ChangedAbsentIsIdentity | frontend/src/contexts/articleContext.jsx:16-19 | `changed` with an id that no entry has leaves the list unchanged |
| ArticleContext.DeletedAbsentIsIdentity | frontend/src/contexts/articleContext.jsx:21-22 | `deleted` with an id that no entry has leaves the list unchanged |
| ArticleContext.DeletedRemovesAndKeepsOrder | frontend/src/contexts/articleContext.jsx:21-22 | after `deleted`, no entry has the id; other articles keep their multiplicity; survivors keep their relative order |
| ArticleContext.SetIsIdempotent | frontend/src/contexts/articleContext.jsx:24-25 | `set` yields exactly its list whatever the prior state, so applying it twice equals applying it once |
| ArticleContext.ChangedIsIdempotent | frontend/src/contexts/articleContext.jsx:16-19 | applying the same `changed` twice equals applying it once |
| ArticleContext.DeletedIsIdempotent | frontend/src/contexts/articleContext.jsx:21-22 | applying the same `deleted` twice equals applying it once |
| ArticleContext.AddedThenDeletedRestores | frontend/src/contexts/articleContext.jsx:10-22 | adding a complete article with a fresh id, then deleting that id, restores the list |
| ArticleContext.ChangedThenChangedBackRestores | frontend/src/contexts/articleContext.jsx:16-19 | with unique ids, changing an entry and then changing it back restores the list |
| ArticleContext.ReducePreservesUniqueIds | frontend/src/contexts/articleContext.jsx:8-26 | every known action keeps ids unique, given that an added id is fresh and a set list is unique |
| ArticleContext.Mount | frontend/src/contexts/articleContext.jsx:35-36 | the provider starts with the empty list and loading set |
| ArticleContext.FetchSettled | frontend/src/contexts/articleContext.jsx:39-59 | when the fetch settles, loading ends; a fetched list replaces the state as `set` would; a failed fetch keeps the list |
| JsText.IntToStringRoundTrip | frontend/src/User/UserManagement.jsx:108 | the decimal rendering of an id in a path reads back as the same integer |
| RegisterForm.ValidateForm | frontend/src/auth/Register.jsx:29-63 | the form is valid iff username length >= 4, password length >= 6, the confirmation is equal, and the e-mail matches the pattern; each error field is non-empty exactly when its own check fails |
| RegisterForm.EmailShapeIsPattern | frontend/src/auth/Register.jsx:55-56 | the regular expression accepts exactly the strings with one '@', no whitespace, a non-empty local part, and an inner '.' after the '@' |
| RegisterForm.AcceptedEmailShape | frontend/src/auth/Register.jsx:55-59 | an accepted address has exactly one '@' and no whitespace, and a '.' strictly inside the part after the '@' |
| RegisterForm.AllFailuresReported | frontend/src/auth/Register.jsx:36-61 | the checks do not short-circuit: a form failing all four reports all four messages |
| RegisterForm.EmailExampleAccepted | frontend/src/auth/Register.jsx:55-56 | "x@x.com" matches the pattern |
| RegisterForm.EmailExamplesRejected | frontend/src/auth/Register.jsx:55-56 | "x@com" (no '.' after the '@') and "a@b@c.d" (two '@') do not match |
| RegisterForm.UsernameBoundaryIsInclusive | frontend/src/auth/Register.jsx:37-40 | a 3-character username fails its check and a 4-character one passes it |
| RegisterForm.MismatchFails | frontend/src/auth/Register.jsx:49-52 | differing passwords fail validation even when both are long enough; only the confirmation error is set among the password fields |
| RegisterForm.SubmitRegistration | frontend/src/auth/Register.jsx:65-82 | a request is issued iff the form is valid, and it carries the name, e-mail and password as typed |
| UserModel.FindByPk | backend/controllers/userController.js:18 | a lookup fails only when storage is down and finds a row exactly when the id is a key; in a valid table the row found carries the requested id |
| UserModel.FindAll | backend/controllers/userController.js:6 | listing fails only when storage is down and yields exactly the table's rows; in a valid table it loses none (as many rows as keys) |
| UserModel.ColumnValue | backend/models/User.js:14-26 | a `VARCHAR(255)` column holds an accepted value as its prefix: the whole value when it has at most 255 characters, otherwise exactly its first 255; everything cut is spaces |
| UserModel.StoredRow | backend/models/User.js:14-26 | the stored row holds each string column's `ColumnValue`, keeps id and permissions, fits every column, and equals the given row iff that row already fits |
| UserModel.Create | backend/models/User.js:9-35 | an insert succeeds iff storage is up, every string is accepted by its 255-character column and the stored e-mail is unused; the new row has a fresh id, each string as its column holds it, and all-false permissions when none are given; the table invariant is kept |
| UserModel.Save | backend/models/User.js:14-26 | saving a row succeeds iff storage is up, its strings are accepted by their columns and no other row has its stored e-mail; only that key changes, to the row as stored; the table invariant is kept |
| UserModel.Destroy | backend/controllers/userController.js:81 | a hard delete removes exactly that key and changes no other row |
| UserController.Merge | backend/controllers/userController.js:61-63 | the update keeps the id and password; name and e-mail are replaced only by truthy values; permissions are replaced only when supplied |
| UserController.GetAllUsers | backend/controllers/userController.js:4-13 | the listing holds exactly the table's rows; a storage failure is 500 |
| UserController.GetUserById | backend/controllers/userController.js:16-27 | 200 with the row iff the id is present; 404 when absent; 500 when storage is down; the table is unchanged |
| UserController.CreateUser | backend/controllers/userController.js:30-49 | a missing or empty name, e-mail or password is 400 with the table unchanged; 201 iff the fields are complete, storage is up, their columns accept them and the stored e-mail is unused, and then exactly one row is added holding the name, e-mail and unhashed password as their columns hold them, with default permissions when omitted; any other outcome of a complete request is 500, including storage down and a taken e-mail |
| UserController.UpdateUser | backend/controllers/userController.js:52-71 | with storage up, an absent id is 404; 200 iff storage is up, the id is present, the merged row's columns accept it and its stored e-mail belongs to no other row, and then the row becomes the merged row as stored while the response shows the merged instance; storage down or a refused save is 500 with the table unchanged; keys and other rows never change |
| UserController.DeleteUser | backend/controllers/userController.js:74-87 | 200 iff the id is present and storage is up, and then exactly that key is removed; with storage up an absent id is 404; storage down is 500; both with the table unchanged |
| UserController.HandlersPreserveValid | backend/models/User.js:9-22 | every handler keeps ids matching keys and below the next id, every string within its 255-character column, and e-mails unique |
| UserController.UpdateOnlyNameKeepsTheRest | backend/controllers/userController.js:61-63 | an update supplying only a name the column accepts changes the name to its stored form and leaves e-mail and permissions as they were |
| UserController.EmptyUpdateIsIdentity | backend/controllers/userController.js:61-65 | every update whose name and e-mail are falsy and whose permissions are omitted succeeds and leaves the table's rows as they were |
| UserController.CreateThenGet | backend/controllers/userController.js:16-44 | a created row is what a later lookup of its id returns |
| UserController.CreateThenDeleteRestores | backend/controllers/userController.js:30-82 | deleting the row just created restores the table's rows |
| UserController.DeleteThenGetIsNotFound | backend/controllers/userController.js:74-82 | after a delete, looking the id up or deleting it again is 404 |
| UserController.DeleteAbsentKeepsCount | backend/controllers/userController.js:76-79 | deleting an absent id is 404 and the row count is unchanged |
| RegisterController.GenerateEmail | backend/controllers/registerController.js:10-15 | a generated address is the random part, '@', and one of the four domains |
| RegisterController.Register | backend/controllers/registerController.js:18-47 | a taken name (compared as sent) is 400; 201 iff storage is up, the name is free, the columns accept the name, generated e-mail and hash, and the stored e-mail is unused; otherwise 500; on 201 exactly one row is added (the stored forms of the request name, the generated e-mail and `hash(password)`, default permissions), the token is `sign({userId, name})` and the summary is id, name and e-mail, all with stored values; on any other status the table is unchanged |
| RegisterController.SuppliedEmailIgnored | backend/controllers/registerController.js:19-32 | the e-mail in the request has no influence on the outcome |
| RegisterController.RegisterPreservesUniqueNames | backend/controllers/registerController.js:23-32 | sequential registrations of names of at most 255 characters keep names duplicate-free |
| RegisterController.PaddedNameDuplicatesName | backend/controllers/registerController.js:23-32 | a 256-character name ending in a space whose first 255 characters are an existing name passes the name check, is registered (201) and leaves two rows with the same name |
| RegisterController.RegisterTwiceIsRefused | backend/controllers/registerController.js:23-26 | registering a name of at most 255 characters again is 400 and leaves the first row and the table as they were |
| RegisterController.GeneratedEmailMatchesPattern | backend/controllers/registerController.js:10-15 | a generated address passes the registration form's e-mail pattern iff its random part is non-empty |
| UserManagement.FormatPermissionsCases | frontend/src/User/UserManagement.jsx:170-175 | the cell is "" for no flags, the one label for one flag, and "文章管理, 栏目管理" for both, in that order |
| UserManagement.FormatPermissionsRoundTrip | frontend/src/User/UserManagement.jsx:170-175 | the displayed cell determines both flags |
| UserManagement.OpenDialog | frontend/src/User/UserManagement.jsx:65-77 | opening with no user selects an empty name with all-false flags; opening with a user copies its id, name and two flags; the dialog is open |
| UserManagement.CloseDialog | frontend/src/User/UserManagement.jsx:80-83 | closing clears the selection and closes the dialog; the flags stay as they were |
| UserManagement.EditName | frontend/src/User/UserManagement.jsx:226-228 | typing replaces the selected name and keeps the selected id |
| UserManagement.TogglePermission | frontend/src/User/UserManagement.jsx:162-167 | a checkbox sets only its own flag; the other flag and the selection are unchanged |
| UserManagement.StepKeepsConsistent | frontend/src/User/UserManagement.jsx:65-83 | every dialog event keeps "open iff a user is selected", so save always has a selection |
| UserManagement.ReachableDialogsAreConsistent | frontend/src/User/UserManagement.jsx:32-83 | from the initial state (closed, nothing selected), every sequence of dialog events keeps "open iff a user is selected" |
| UserManagement.SaveDecision | frontend/src/User/UserManagement.jsx:91-120 | an empty name sends nothing and sets the error; otherwise PUT to `/api/users/{id}` when the id is truthy, else POST to `/api/users`; the body is only the name and the current flags |
| UserManagement.PutPathNamesSelectedUser | frontend/src/User/UserManagement.jsx:106-108 | the id segment of a PUT path reads back as the selected user's id |
| UserManagement.NewUserWithoutNameSendsNothing | frontend/src/User/UserManagement.jsx:73-96 | saving a freshly opened blank dialog issues no request |
| EndToEnd.DialogPutUpdatesRow | frontend/src/User/UserManagement.jsx:98-112 | a dialog PUT succeeds iff the name column accepts the name, and then renames the row to the stored name and sets the dialog's flags, keeping its e-mail and password |
| EndToEnd.DialogPostIsRejected | frontend/src/User/UserManagement.jsx:98-120 | a dialog POST lacks e-mail and password, so the create endpoint answers 400 and the table is unchanged |
| EndToEnd.FormRegistrationIsListed | frontend/src/auth/Register.jsx:69-82 | a valid form whose name is free and whose values the columns accept registers a user under the name as its column holds it, and the user list then contains its row |

## Left out

- Network I/O is not modelled: fetch calls, `response.json()`, `localStorage`, the delayed navigation, the Snackbar and the screens' loading flags. Only the decisions they act on are modelled.
- `fetchUsers` and `handleDeleteUser` in the user screen are not modelled, because they only issue requests and copy results into view state.
- React rendering and the article management view are not modelled: they are composition and markup.
- bcrypt hashing and JWT signing are parameters `hash` and `sign`. This leaves out the cost factor 10, salting, the 365-day expiry, and any claim that a hash differs from its plaintext.
- `Math.random` is not modelled: the random part and domain index of a generated e-mail are parameters, and registration receives the generated address as a parameter. Generated addresses are not claimed to be unique.
- Sequelize and PostgreSQL internals are not modelled: `User.sync()`, the connection pool and SQL. The table is a map, and every storage failure is the single `online` flag.
- UserModel.Create: does not model the id sequence advancing on a refused insert, so ids are only promised fresh, not gap-free.
- UserController.GetAllUsers: the listing is a set of rows, because `findAll` has no ordering.
- UserController.GetUserById: the path id is an unbounded integer. A non-numeric `:id`, or one outside the 32-bit range of the INTEGER primary key, makes the query fail with 500 in the code; the model answers 404 for such an id.
- UserController.UpdateUser: the same holds for its path id. A non-numeric or out-of-range `:id` yields 500 in the code, while the model answers 404.
- UserController.DeleteUser: the same holds for its path id. A non-numeric or out-of-range `:id` yields 500 in the code, while the model answers 404.
- UserModel.Create: the auto-increment sequence is unbounded; exhausting the 32-bit INTEGER range is not modelled.
- JsText.IntToStringRoundTrip: the rendering is plain decimal for every integer. JavaScript switches to exponent notation at 1e21 and above, so the model matches `${n}` only below that bound.
- UserController.CreateUser: an explicitly `null` permissions field, which the not-null constraint would refuse with 500, is not distinguished from an omitted one.
- Every 500 response omits the `error` detail text, which comes from the storage library.
- RegisterController.Register: signing never fails in the model, because `sign` is a total function. In the code `jwt.sign` runs after the insert inside the same `try`; if it throws (for example when `JWT_KEY` is unset), the answer is 500 while the new row stays inserted.
- RegisterController.Register: the request fields are strings, as the registration form always sends. Missing or non-string fields sent by other clients are not modelled.
- RegisterController.RegisterPreservesUniqueNames: holds only for names of at most 255 characters. A longer name padded with spaces passes the name check, which compares the uncut name, and is stored cut, so it can duplicate an existing name; RegisterController.PaddedNameDuplicatesName proves this.
- RegisterController.RegisterTwiceIsRefused: holds only for names of at most 255 characters, for the same reason: the first registration stores a padded name cut, and the second check does not find it.
- UserController.CreateUser: the request fields are strings and permissions is the two-flag record. A truthy non-string field (such as a number) and a permissions object of another shape (such as `{}`) are not modelled.
- UserController.UpdateUser: the request fields are strings and permissions is the two-flag record. A truthy non-string field and a permissions object of another shape, which would replace the stored object whole, are not modelled.
- UserController.UpdateUser: the response is modelled as the merged instance, because the save is not followed by a reload; whether the storage library copies cut column values back into the instance is not modelled.
- UserModel.Create: a string containing U+0000, which PostgreSQL does not store in a text column, is not distinguished. Whether it is refused or escaped depends on how the storage library transmits the value, which is not part of this model.
- UserModel.Save: the same holds for U+0000 in a saved row.
- The race between the name check and the insert in registration is not modelled. The model is sequential, and name uniqueness is claimed only for sequential calls.
- ArticleContext.Reduce: every action carries its payload. An action missing its `article` object, which would throw a TypeError, and a non-array `set` payload are not modelled.
- Article ids are integers compared with `===`; other id types are not modelled.
- Token verification middleware, the route table and the application setup (CORS, logging, static files, error pages, and which router is mounted) are not modelled. They are configuration, and the middleware's source is not part of this model.

=== FILE: article_context.dfy ===
/**
 The client-side article list: a reducer over an ordered sequence of articles
 (newest first) driven by `added`, `changed`, `deleted` and `set` actions, and
 the provider state that pairs the list with a loading flag.
 */
module ArticleContext {
  import opened Wrappers
  import opened JsText

  /** An article as the client holds it; `title` and `content` may be missing from the payload. */
  datatype Article = Article(id: int, title: Option<string>, content: Option<string>)

  type Articles = seq<Article>

  /** An action `type` the reducer does not handle. */
  type UnknownKind = k: string | k != "added" && k != "changed" && k != "deleted" && k != "set" witness "unknown"

  /** The dispatched actions; `Other` is any action whose `type` is none of the four known ones. */
  datatype Action =
    | Added(article: Article)
    | Changed(article: Article)
    | Deleted(id: int)
    | Set(articles: Articles)
    | Other(kind: UnknownKind)

  /** The list the reducer starts from before anything has been fetched. */
  const InitialArticles: Articles := []

  /** An article may be added only when both its title and its content are truthy. */
  predicate Complete(a: Article) {
    Truthy(a.title) && Truthy(a.content)
  }

  predicate HasId(articles: Articles, id: int) {
    exists i :: 0 <= i < |articles| && articles[i].id == id
  }

  /** No two entries share an id. */
  predicate UniqueIds(articles: Articles) {
    forall i, j :: 0 <= i < j < |articles| ==> articles[i].id != articles[j].id
  }

  /** `idx` places each entry of `sub` at a strictly later position of `full`: `sub` keeps `full`'s order. */
  ghost predicate Embeds(idx: seq<nat>, sub: Articles, full: Articles) {
    && |idx| == |sub|
    && (forall i :: 0 <= i < |idx| ==> idx[i] < |full| && sub[i] == full[idx[i]])
    && (forall i, j :: 0 <= i < j < |idx| ==> idx[i] < idx[j])
  }

  /** `articles.map(t => t.id === a.id ? a : t)`: every entry carrying `a`'s id is replaced by `a`. */
  function Replace(articles: Articles, a: Article): (r: Articles)
    ensures |r| == |articles|
    ensures forall i :: 0 <= i < |r| ==> r[i] == (if articles[i].id == a.id then a else articles[i])
  {
    if articles == [] then []
    else [if articles[0].id == a.id then a else articles[0]] + Replace(articles[1..], a)
  }

  /** `articles.filter(t => t.id !== id)`. */
  function Remove(articles: Articles, id: int): (r: Articles)
    ensures |r| <= |articles|
    ensures forall i :: 0 <= i < |r| ==> r[i].id != id
    ensures forall x: Article :: multiset(r)[x] == (if x.id == id then 0 else multiset(articles)[x])
  {
    if articles == [] then []
    else if articles[0].id == id then
      assert articles == [articles[0]] + articles[1..];
      Remove(articles[1..], id)
    else
      assert articles == [articles[0]] + articles[1..];
      [articles[0]] + Remove(articles[1..], id)
  }

  /** One reducer step; an unknown action type is a programming error, reported as `Err`. */
  function Reduce(articles: Articles, action: Action): (r: Result<Articles, string>)
    ensures r.Err? <==> action.Other?
    ensures action.Other? ==> r.error == "Unknown action: " + action.kind
  {
    match action
    case Added(a) => if !Complete(a) then Ok(articles) else Ok([a] + articles)
    case Changed(a) => Ok(Replace(articles, a))
    case Deleted(id) => Ok(Remove(articles, id))
    case Set(xs) => Ok(xs)
    case Other(kind) => Err("Unknown action: " + kind)
  }

  /** An `added` article missing its title or its content leaves the list as it was. */
  lemma AddedIncompleteIsIgnored(articles: Articles, a: Article)
    requires !Truthy(a.title) || !Truthy(a.content)
    ensures Reduce(articles, Added(a)) == Ok(articles)
  {
  }

  /** A complete `added` article becomes the new head, in front of the unchanged old list. */
  lemma AddedPrepends(articles: Articles, a: Article)
    requires Complete(a)
    ensures Reduce(articles, Added(a)).Ok?
    ensures var r := Reduce(articles, Added(a)).value;
      |r| == |articles| + 1 && r[0] == a && r[1..] == articles
  {
  }

  /** `changed` keeps the length and replaces exactly the entries with the article's id, in place. */
  lemma ChangedReplacesMatching(articles: Articles, a: Article)
    ensures Reduce(articles, Changed(a)).Ok?
    ensures var r := Reduce(articles, Changed(a)).value;
      && |r| == |articles|
      && (forall i :: 0 <= i < |r| && articles[i].id == a.id ==> r[i] == a)
      && (forall i :: 0 <= i < |r| && articles[i].id != a.id ==> r[i] == articles[i])
  {
  }

  /** `changed` with an id no entry carries changes nothing. */
  lemma ChangedAbsentIsIdentity(articles: Articles, a: Article)
    requires !HasId(articles, a.id)
    ensures Reduce(articles, Changed(a)) == Ok(articles)
  {
    var r := Replace(articles, a);
    forall i | 0 <= i < |r| ensures r[i] == articles[i] {
      assert articles[i].id != a.id;
    }
    assert r == articles;
  }

  lemma {:induction false} RemoveAbsent(articles: Articles, id: int)
    requires !HasId(articles, id)
    ensures Remove(articles, id) == articles
  {
    if articles != [] {
      assert articles[0].id != id;
      assert !HasId(articles[1..], id) by {
        forall i | 0 <= i < |articles[1..]| ensures articles[1..][i].id != id {
          assert articles[1..][i] == articles[i + 1];
        }
      }
      RemoveAbsent(articles[1..], id);
      assert articles == [articles[0]] + articles[1..];
    }
  }

  /** `deleted` with an id no entry carries changes nothing. */
  lemma DeletedAbsentIsIdentity(articles: Articles, id: int)
    requires !HasId(articles, id)
    ensures Reduce(articles, Deleted(id)) == Ok(articles)
  {
    RemoveAbsent(articles, id);
  }

  /** Positions into `full[1..]`, moved one place to the right, are positions into `full`. */
  function Shift(idx: seq<nat>): (r: seq<nat>)
    ensures |r| == |idx| && forall k :: 0 <= k < |idx| ==> r[k] == idx[k] + 1
  {
    seq(|idx|, k requires 0 <= k < |idx| => idx[k] + 1)
  }

  lemma ShiftEmbeds(idx: seq<nat>, sub: Articles, full: Articles)
    requires |full| > 0 && Embeds(idx, sub, full[1..])
    ensures Embeds(Shift(idx), sub, full)
    ensures Embeds([0] + Shift(idx), [full[0]] + sub, full)
  {
    var s := Shift(idx);
    forall i | 0 <= i < |s| ensures s[i] < |full| && sub[i] == full[s[i]] {
      assert full[1..][idx[i]] == full[idx[i] + 1];
    }
    var t := [0] + s;
    var sub' := [full[0]] + sub;
    forall i | 0 <= i < |t| ensures t[i] < |full| && sub'[i] == full[t[i]] {
      if i > 0 {
        assert t[i] == s[i - 1] && sub'[i] == sub[i - 1];
      }
    }
  }

  /** Witness positions for the survivors of `Remove`, in increasing order. */
  lemma {:induction false} RemoveEmbedding(articles: Articles, id: int) returns (idx: seq<nat>)
    ensures Embeds(idx, Remove(articles, id), articles)
  {
    if articles == [] {
      idx := [];
    } else {
      var rest := RemoveEmbedding(articles[1..], id);
      ShiftEmbeds(rest, Remove(articles[1..], id), articles);
      if articles[0].id == id {
        idx := Shift(rest);
      } else {
        idx := [0] + Shift(rest);
      }
    }
  }

  /**
   `deleted` leaves no entry with the id, keeps every other entry (with its multiplicity)
   and keeps the survivors in their original relative order.
   */
  lemma DeletedRemovesAndKeepsOrder(articles: Articles, id: int)
    ensures Reduce(articles, Deleted(id)).Ok?
    ensures var r := Reduce(articles, Deleted(id)).value;
      && !HasId(r, id)
      && (forall x: Article :: x.id != id ==> multiset(r)[x] == multiset(articles)[x])
      && (exists idx :: Embeds(idx, r, articles))
  {
    var idx := RemoveEmbedding(articles, id);
  }

  /** `set` yields exactly the given list whatever the prior state, so it is idempotent. */
  lemma SetIsIdempotent(articles: Articles, xs: Articles)
    ensures Reduce(articles, Set(xs)) == Ok(xs)
    ensures Reduce(Reduce(articles, Set(xs)).value, Set(xs)) == Reduce(articles, Set(xs))
  {
  }

  /** Changing to the same article twice is the same as changing once. */
  lemma ChangedIsIdempotent(articles: Articles, a: Article)
    ensures Reduce(Reduce(articles, Changed(a)).value, Changed(a)) == Reduce(articles, Changed(a))
  {
    var once := Replace(articles, a);
    var twice := Replace(once, a);
    assert forall i :: 0 <= i < |twice| ==> twice[i] == once[i];
    assert twice == once;
  }

  /** Deleting the same id twice is the same as deleting it once. */
  lemma DeletedIsIdempotent(articles: Articles, id: int)
    ensures Reduce(Reduce(articles, Deleted(id)).value, Deleted(id)) == Reduce(articles, Deleted(id))
  {
    RemoveAbsent(Remove(articles, id), id);
  }

  /** Adding a complete article with a fresh id and then deleting that id restores the list. */
  lemma AddedThenDeletedRestores(articles: Articles, a: Article)
    requires Complete(a) && !HasId(articles, a.id)
    ensures Reduce(Reduce(articles, Added(a)).value, Deleted(a.id)) == Ok(articles)
  {
    assert Remove([a] + articles, a.id) == Remove(articles, a.id) by {
      assert ([a] + articles)[1..] == articles;
    }
    RemoveAbsent(articles, a.id);
  }

  /** Replacing the unique entry `articles[i]` by `a` and then changing back to it restores the list. */
  lemma ChangedThenChangedBackRestores(articles: Articles, i: int, a: Article)
    requires UniqueIds(articles) && 0 <= i < |articles| && a.id == articles[i].id
    ensures Reduce(Reduce(articles, Changed(a)).value, Changed(articles[i])) == Ok(articles)
  {
    var back := Replace(Replace(articles, a), articles[i]);
    forall j | 0 <= j < |back| ensures back[j] == articles[j] {
      if j != i {
        assert articles[j].id != articles[i].id;
      }
    }
    assert back == articles;
  }

  /** Every known action keeps ids unique, provided an added article's id is fresh. */
  lemma ReducePreservesUniqueIds(articles: Articles, action: Action)
    requires UniqueIds(articles)
    requires action.Added? ==> !HasId(articles, action.article.id)
    requires action.Set? ==> UniqueIds(action.articles)
    requires !action.Other?
    ensures UniqueIds(Reduce(articles, action).value)
  {
    match action
    case Added(a) =>
      var r := Reduce(articles, action).value;
      if Complete(a) {
        forall i, j | 0 <= i < j < |r| ensures r[i].id != r[j].id {
          if i == 0 {
            assert r[j] == articles[j - 1];
          } else {
            assert r[i] == articles[i - 1] && r[j] == articles[j - 1];
          }
        }
      }
    case Changed(a) =>
    case Deleted(id) =>
      var idx := RemoveEmbedding(articles, id);
      var r := Remove(articles, id);
      forall i, j | 0 <= i < j < |r| ensures r[i].id != r[j].id {
        assert r[i] == articles[idx[i]] && r[j] == articles[idx[j]];
      }
    case Set(xs) =>
  }

  /** The provider's state: the reducer's list and whether the initial fetch is still pending. */
  datatype ProviderState = ProviderState(articles: Articles, isLoading: bool)

  /** Mounting the provider: an empty list, loading. */
  function Mount(): (st: ProviderState)
    ensures st.articles == [] && st.isLoading
  {
    ProviderState(InitialArticles, true)
  }

  /**
   The initial fetch settling: a parsed list is dispatched as `set`; a failed fetch leaves
   the list alone. Either way loading ends.
   */
  function FetchSettled(st: ProviderState, fetched: Option<Articles>): (st': ProviderState)
    ensures !st'.isLoading
    ensures fetched.None? ==> st'.articles == st.articles
    ensures fetched.Some? ==> Ok(st'.articles) == Reduce(st.articles, Set(fetched.value))
  {
    match fetched
    case Some(data) => ProviderState(Reduce(st.articles, Set(data)).value, false)
    case None => ProviderState(st.articles, false)
  }
}

=== FILE: end_to_end.dfy ===
/**
 What happens when the screens' requests reach the handlers: the registration form
 feeding the register endpoint, and the user dialog's PUT and POST feeding the update
 and create endpoints.
 */
module EndToEnd {
  import opened Wrappers
  import opened Http
  import opened UserModel
  import UserController
  import RegisterController
  import RegisterForm
  import UserManagement

  /** The update request a dialog PUT body turns into: name and permissions, no e-mail. */
  function UpdateFromDialog(body: UserManagement.UserData): UserController.UpdateRequest {
    UserController.UpdateRequest(Some(body.name), None, Some(body.permissions))
  }

  /** The create request a dialog POST body turns into: no e-mail, no password. */
  function CreateFromDialog(body: UserManagement.UserData): UserController.CreateRequest {
    UserController.CreateRequest(Some(body.name), None, None, Some(body.permissions))
  }

  /**
   Saving an existing user from the dialog succeeds exactly when the name column accepts
   the name; it then renames the row to the stored name and sets the dialog's flags,
   keeping its e-mail and password.
   */
  lemma DialogPutUpdatesRow(db: Db, d: UserManagement.Dialog)
    requires Valid(db) && db.online
    requires d.selected.Some? && UserManagement.SaveDecision(d).Put?
    requires d.selected.value.id.value in db.rows
    ensures var id := d.selected.value.id.value;
      var r := UserController.UpdateUser(db, id, UpdateFromDialog(UserManagement.SaveDecision(d).body));
      && (r.status == StatusOk <==> ColumnAccepts(d.selected.value.name))
      && (r.status == StatusOk ==>
            r.db.rows[id] == db.rows[id].(name := ColumnValue(d.selected.value.name), permissions := d.permissions))
  {
  }

  /**
   The dialog's create body carries no e-mail and no password, so the create endpoint
   always answers 400 to it and the table is unchanged.
   */
  lemma DialogPostIsRejected(db: Db, d: UserManagement.Dialog)
    requires d.selected.Some? && UserManagement.SaveDecision(d).Post?
    ensures var r := UserController.CreateUser(db, CreateFromDialog(UserManagement.SaveDecision(d).body));
      r.status == StatusBadRequest && r.db == db
  {
  }

  /**
   A form that passes validation, sent to a table where its name is free, registers a user
   under that name as its column holds it, and the user list then contains that row.
   */
  lemma FormRegistrationIsListed(db: Db, username: string, password: string, confirm: string, email: string,
                                 hash: string -> string, sign: RegisterController.TokenPayload -> string, generated: string)
    requires db.online
    requires RegisterForm.SubmitRegistration(username, password, confirm, email).Some?
    requires !(exists k :: k in db.rows && db.rows[k].name == username)
    requires ColumnAccepts(username) && ColumnAccepts(generated) && ColumnAccepts(hash(password))
    requires !EmailTaken(db.rows, ColumnValue(generated))
    ensures var req := RegisterForm.SubmitRegistration(username, password, confirm, email).value;
      var r := RegisterController.Register(db, req, hash, sign, generated);
      && r.status == StatusCreated
      && r.body.user.name == ColumnValue(username)
      && var listed := UserController.GetAllUsers(r.db);
      && listed.status == StatusOk
      && var row := User(r.body.user.id, ColumnValue(username), ColumnValue(generated), ColumnValue(hash(password)), DefaultPermissions);
      && row in listed.body.users
  {
    var req := RegisterForm.SubmitRegistration(username, password, confirm, email).value;
    assert req.name == username && req.password == password;
    var r := RegisterController.Register(db, req, hash, sign, generated);
    var id := r.body.user.id;
    assert r.db.rows[id] == User(id, ColumnValue(username), ColumnValue(generated), ColumnValue(hash(password)), DefaultPermissions);
  }
}

=== FILE: http.dfy ===
/** What travels over HTTP between the screens and the handlers: status codes and shared bodies. */
module Http {
  const StatusOk := 200
  const StatusCreated := 201
  const StatusBadRequest := 400
  const StatusNotFound := 404
  const StatusServerError := 500

  /** The JSON body of `POST /api/register`. */
  datatype RegisterRequest = RegisterRequest(name: string, email: string, password: string)
}

=== FILE: js_text.dfy ===
/**
 The few pieces of JavaScript value semantics the application's decisions rely on:
 truthiness of optional string fields, the `\s` character class of regular
 expressions, `String.prototype.length` (UTF-16 code units) and the decimal
 rendering of an integer inside a template string.
 */
module JsText {
  import opened Wrappers

  /** `!x` is false for an optional string field exactly when it is present and non-empty. */
  predicate Truthy(s: Option<string>) {
    s.Some? && s.value != ""
  }

  /** The characters JavaScript's `\s` matches (WhiteSpace and LineTerminator of ECMA-262). */
  predicate IsWhitespace(c: char) {
    || c == ' ' || c == '\t' || c == '\n' || c == '\r'
    || c as int == 0x0B || c as int == 0x0C || c as int == 0xA0
    || c as int == 0x1680 || (0x2000 <= c as int <= 0x200A)
    || c as int == 0x2028 || c as int == 0x2029 || c as int == 0x202F
    || c as int == 0x205F || c as int == 0x3000 || c as int == 0xFEFF
  }

  /** `s.length`: characters outside the Basic Multilingual Plane take two UTF-16 code units. */
  function Utf16Length(s: string): (n: nat)
    ensures |s| <= n <= 2 * |s|
    ensures (forall i :: 0 <= i < |s| ==> s[i] as int <= 0xFFFF) ==> n == |s|
  {
    if s == [] then 0
    else Utf16Length(s[..|s| - 1]) + (if s[|s| - 1] as int > 0xFFFF then 2 else 1)
  }

  predicate IsDigit(c: char) {
    '0' <= c <= '9'
  }

  function DigitChar(d: nat): (c: char)
    requires d < 10
    ensures IsDigit(c) && c as int - '0' as int == d
  {
    ('0' as int + d) as char
  }

  /** The decimal numeral of a natural number, as `${n}` renders it. */
  function Digits(n: nat): (s: string)
    ensures |s| > 0
    ensures forall i :: 0 <= i < |s| ==> IsDigit(s[i])
    ensures |s| > 1 ==> s[0] != '0'
    decreases n
  {
    if n < 10 then [DigitChar(n)] else Digits(n / 10) + [DigitChar(n % 10)]
  }

  /** The value of a string of decimal digits. */
  function DigitsValue(s: string): nat
    requires forall i :: 0 <= i < |s| ==> IsDigit(s[i])
  {
    if s == [] then 0
    else
      assert IsDigit(s[|s| - 1]);
      DigitsValue(s[..|s| - 1]) * 10 + (s[|s| - 1] as int - '0' as int)
  }

  /** `${n}` for an integer: a leading '-' for negative values. */
  function IntToString(n: int): (s: string)
    ensures |s| > 0
    ensures n >= 0 <==> s[0] != '-'
  {
    if n < 0 then "-" + Digits(-n) else Digits(n)
  }

  /** Reads back a rendered integer: an optional '-' followed by decimal digits. */
  function ParseInt(s: string): Option<int> {
    if |s| > 1 && s[0] == '-' && (forall i :: 1 <= i < |s| ==> IsDigit(s[i])) then
      Some(-(DigitsValue(s[1..]) as int))
    else if |s| > 0 && (forall i :: 0 <= i < |s| ==> IsDigit(s[i])) then
      Some(DigitsValue(s))
    else
      None
  }

  lemma {:induction false} DigitsRoundTrip(n: nat)
    ensures DigitsValue(Digits(n)) == n
    decreases n
  {
    if n >= 10 {
      var prefix := Digits(n / 10);
      var s := prefix + [DigitChar(n % 10)];
      assert s[..|s| - 1] == prefix;
      DigitsRoundTrip(n / 10);
    }
  }

  /** Rendering an integer and reading it back gives the integer: the rendering is injective. */
  lemma IntToStringRoundTrip(n: int)
    ensures ParseInt(IntToString(n)) == Some(n)
  {
    if n < 0 {
      DigitsRoundTrip(-n);
      assert IntToString(n)[1..] == Digits(-n);
    } else {
      DigitsRoundTrip(n);
    }
  }
}

=== FILE: register_controller.dfy ===
/**
 The register endpoint: refuse a name that is already taken, otherwise insert one row
 with the hashed password and a generated e-mail, and answer with a signed token and a
 summary of the new row. Hashing, signing and the random e-mail are supplied from
 outside: `hash` and `sign` are arbitrary functions, and the generated address is a
 parameter.
 */
module RegisterController {
  import opened Wrappers
  import opened UserModel
  import opened Http
  import RegisterForm

  const UserExistsMessage := "用户已存在"
  const RegisteredMessage := "注册成功"
  const RegisterFailedMessage := "注册失败"

  /** The domains `generateRandomEmail` picks from. */
  const EmailDomains: seq<string> := ["gmail.com", "yahoo.com", "qq.com", "outlook.com"]

  /** What the token is signed over. */
  datatype TokenPayload = TokenPayload(userId: int, name: string)

  /** The user summary in the response; it has no password field. */
  datatype Summary = Summary(id: int, name: string, email: string)

  datatype RegisterBody =
    | Registered(message: string, token: string, user: Summary)
    | Refused(message: string)

  datatype RegisterReply = RegisterReply(status: int, body: RegisterBody, db: Db)

  /** Characters `Number.prototype.toString(36)` produces after "0.". */
  predicate Base36Char(c: char) {
    '0' <= c <= '9' || 'a' <= c <= 'z'
  }

  /**
   `generateRandomEmail` with its two random draws as parameters: up to six base-36
   characters, '@', and one of the four domains.
   */
  function GenerateEmail(randomPart: string, domainIndex: nat): (e: string)
    requires |randomPart| <= 6 && forall i :: 0 <= i < |randomPart| ==> Base36Char(randomPart[i])
    requires domainIndex < |EmailDomains|
    ensures |e| > |randomPart| + 1
    ensures e[..|randomPart|] == randomPart && e[|randomPart|] == '@'
    ensures e[|randomPart| + 1..] in EmailDomains
  {
    randomPart + "@" + EmailDomains[domainIndex]
  }

  /**
   Each domain is free of whitespace and '@' and has an inner '.' at `dot`, so the parts
   before and after that dot are non-empty runs of pattern characters.
   */
  lemma DomainShape(domainIndex: nat) returns (dot: nat)
    requires domainIndex < |EmailDomains|
    ensures var d := EmailDomains[domainIndex];
      && 0 < dot < |d| - 1 && d[dot] == '.'
      && forall i :: 0 <= i < |d| ==> RegisterForm.PatternChar(d[i])
    ensures var d := EmailDomains[domainIndex];
      RegisterForm.AllPatternChars(d[..dot]) && RegisterForm.AllPatternChars(d[dot + 1..])
  {
    dot := if domainIndex == 2 then 2 else if domainIndex == 3 then 7 else 5;
    var d := EmailDomains[domainIndex];
    assert forall i :: 0 <= i < |d| ==> RegisterForm.PatternChar(d[i]);
    var right := d[dot + 1..];
    forall i | 0 <= i < |right| ensures RegisterForm.PatternChar(right[i]) {
      assert right[i] == d[dot + 1 + i];
    }
  }

  /** Slices of `prefix + suffix` that start past the prefix are slices of the suffix. */
  lemma {:induction false} SuffixSlices(prefix: string, suffix: string, dot: nat)
    requires dot < |suffix|
    ensures (prefix + suffix)[|prefix|..|prefix| + dot] == suffix[..dot]
    ensures (prefix + suffix)[|prefix| + dot] == suffix[dot]
    ensures (prefix + suffix)[|prefix| + dot + 1..] == suffix[dot + 1..]
  {
    var e := prefix + suffix;
    assert e[|prefix|..] == suffix;
    assert e[|prefix|..|prefix| + dot] == e[|prefix|..][..dot];
    assert e[|prefix| + dot + 1..] == e[|prefix|..][dot + 1..];
  }

  /** No two rows share a name. */
  ghost predicate NamesUnique(rows: map<int, User>) {
    forall j, k :: j in rows && k in rows && j != k ==> rows[j].name != rows[k].name
  }

  /**
   `register`. The name check compares the name as sent, while the insert stores it as
   its column holds it, and the token and summary carry the stored values.
   */
  function Register(db: Db, req: RegisterRequest, hash: string -> string, sign: TokenPayload -> string, generatedEmail: string): (r: RegisterReply)
    ensures !db.online ==> r.status == StatusServerError && r.body == Refused(RegisterFailedMessage)
    ensures db.online && (exists k :: k in db.rows && db.rows[k].name == req.name) ==>
      r.status == StatusBadRequest && r.body == Refused(UserExistsMessage)
    ensures r.status == StatusCreated <==>
      && db.online
      && !(exists k :: k in db.rows && db.rows[k].name == req.name)
      && ColumnAccepts(req.name) && ColumnAccepts(generatedEmail) && ColumnAccepts(hash(req.password))
      && !EmailTaken(db.rows, ColumnValue(generatedEmail))
    ensures db.online && !(exists k :: k in db.rows && db.rows[k].name == req.name) && r.status != StatusCreated ==>
      r.status == StatusServerError && r.body == Refused(RegisterFailedMessage)
    ensures (db.online && !(exists k :: k in db.rows && db.rows[k].name == req.name)
             && ColumnAccepts(generatedEmail) && EmailTaken(db.rows, ColumnValue(generatedEmail))) ==>
      r.status == StatusServerError
    ensures r.status != StatusCreated ==> r.db == db && r.body.Refused?
    ensures r.status == StatusCreated ==>
      && r.body.Registered?
      && var id := r.body.user.id;
      && var name := ColumnValue(req.name);
      && r.db.rows == db.rows[id := User(id, name, ColumnValue(generatedEmail), ColumnValue(hash(req.password)), DefaultPermissions)]
      && r.body.token == sign(TokenPayload(id, name))
      && r.body.user == Summary(id, name, ColumnValue(generatedEmail))
      && r.body.message == RegisteredMessage
    ensures r.status == StatusCreated && Valid(db) ==> r.body.user.id !in db.rows && Valid(r.db)
  {
    match NameTaken(db, req.name)
    case Err(_) => RegisterReply(StatusServerError, Refused(RegisterFailedMessage), db)
    case Ok(true) => RegisterReply(StatusBadRequest, Refused(UserExistsMessage), db)
    case Ok(false) =>
      match Create(db, req.name, generatedEmail, hash(req.password), None)
      case Err(_) => RegisterReply(StatusServerError, Refused(RegisterFailedMessage), db)
      case Ok((db', u)) =>
        var token := sign(TokenPayload(u.id, u.name));
        RegisterReply(StatusCreated, Registered(RegisteredMessage, token, Summary(u.id, u.name, u.email)), db')
  }

  /** The e-mail in the request plays no part: the stored address is the generated one. */
  lemma SuppliedEmailIgnored(db: Db, req: RegisterRequest, other: string, hash: string -> string, sign: TokenPayload -> string, generatedEmail: string)
    ensures Register(db, req, hash, sign, generatedEmail) == Register(db, req.(email := other), hash, sign, generatedEmail)
  {
  }

  /**
   Sequential registrations of names that fit their column keep names duplicate-free.
   */
  lemma RegisterPreservesUniqueNames(db: Db, req: RegisterRequest, hash: string -> string, sign: TokenPayload -> string, generatedEmail: string)
    requires Valid(db) && NamesUnique(db.rows)
    requires |req.name| <= MaxStringLength
    ensures NamesUnique(Register(db, req, hash, sign, generatedEmail).db.rows)
  {
    var r := Register(db, req, hash, sign, generatedEmail);
    if r.status == StatusCreated {
      var id := r.body.user.id;
      forall j, k | j in r.db.rows && k in r.db.rows && j != k ensures r.db.rows[j].name != r.db.rows[k].name {
        if j == id {
          assert r.db.rows[k] == db.rows[k];
        } else if k == id {
          assert r.db.rows[j] == db.rows[j];
        }
      }
    }
  }

  /**
   A name one space longer than the column, whose first 255 characters are an existing
   name, passes the name check and is stored cut: the table then holds two rows with the
   same name.
   */
  lemma PaddedNameDuplicatesName(db: Db, req: RegisterRequest, hash: string -> string, sign: TokenPayload -> string, generatedEmail: string)
    requires Valid(db) && db.online
    requires |req.name| == MaxStringLength + 1 && req.name[MaxStringLength] == ' '
    requires exists k :: k in db.rows && db.rows[k].name == req.name[..MaxStringLength]
    requires |generatedEmail| <= MaxStringLength && |hash(req.password)| <= MaxStringLength
    requires !EmailTaken(db.rows, generatedEmail)
    ensures var r := Register(db, req, hash, sign, generatedEmail);
      r.status == StatusCreated && !NamesUnique(r.db.rows)
  {
    var r := Register(db, req, hash, sign, generatedEmail);
    var k :| k in db.rows && db.rows[k].name == req.name[..MaxStringLength];
    assert !(exists j :: j in db.rows && db.rows[j].name == req.name) by {
      forall j | j in db.rows ensures db.rows[j].name != req.name {
        assert FitsColumns(db.rows[j]);
      }
    }
    assert r.status == StatusCreated;
    var id := r.body.user.id;
    assert id != k && k in r.db.rows && r.db.rows[k] == db.rows[k];
    assert r.db.rows[id].name == ColumnValue(req.name) == req.name[..MaxStringLength];
  }

  /**
   Registering a name that fits its column a second time is refused and leaves the first
   row as it was.
   */
  lemma RegisterTwiceIsRefused(db: Db, req: RegisterRequest, req2: RegisterRequest, hash: string -> string, sign: TokenPayload -> string, e1: string, e2: string)
    requires req2.name == req.name && |req.name| <= MaxStringLength
    requires Register(db, req, hash, sign, e1).status == StatusCreated
    ensures var first := Register(db, req, hash, sign, e1);
      var second := Register(first.db, req2, hash, sign, e2);
      && second.status == StatusBadRequest
      && second.db == first.db
      && second.db.rows[first.body.user.id] == first.db.rows[first.body.user.id]
  {
    var first := Register(db, req, hash, sign, e1);
    var id := first.body.user.id;
    assert first.db.rows[id].name == req.name;
  }

  /**
   A generated address passes the registration form's e-mail check whenever the random
   part is non-empty; with an empty random part it does not.
   */
  lemma GeneratedEmailMatchesPattern(randomPart: string, domainIndex: nat)
    requires |randomPart| <= 6 && forall i :: 0 <= i < |randomPart| ==> Base36Char(randomPart[i])
    requires domainIndex < |EmailDomains|
    ensures RegisterForm.MatchesEmailPattern(GenerateEmail(randomPart, domainIndex)) <==> randomPart != ""
  {
    var e := GenerateEmail(randomPart, domainIndex);
    var domain := EmailDomains[domainIndex];
    var at := |randomPart|;
    RegisterForm.EmailShapeIsPattern(e);
    assert e == (randomPart + "@") + domain;
    var d := DomainShape(domainIndex);
    if randomPart != "" {
      SuffixSlices(randomPart + "@", domain, d);
      var dot := at + 1 + d;
      assert e[at + 1..dot] == domain[..d];
      assert e[dot + 1..] == domain[d + 1..];
      assert e[..at] == randomPart;
      assert RegisterForm.AllPatternChars(e[..at]);
      assert RegisterForm.SplitsAsEmail(e, at, dot);
    } else {
      assert e[0] == '@';
    }
  }
}

=== FILE: register_form.dfy ===
/**
 The registration form: four independent checks (username length, password length,
 confirmation equality, e-mail pattern), each with its own error message, and the
 submit guard that sends a register request only for a valid form.
 */
module RegisterForm {
  import opened Wrappers
  import opened JsText
  import opened Http

  const MinUsernameLength := 4
  const MinPasswordLength := 6

  const UsernameError := "用户名必须至少包含 4 个字符"
  const PasswordError := "密码必须至少包含 6 个字符"
  const ConfirmPasswordError := "两次输入的密码不匹配"
  const EmailError := "邮箱格式无效"

  /** The character class `[^\s@]`. */
  predicate PatternChar(c: char) {
    !IsWhitespace(c) && c != '@'
  }

  predicate AllPatternChars(s: string) {
    forall i :: 0 <= i < |s| ==> PatternChar(s[i])
  }

  /**
   The regular expression `^[^\s@]+@[^\s@]+\.[^\s@]+$` read literally: the whole string
   splits into a non-empty run, '@', a non-empty run, '.', and a non-empty run, where
   no run holds whitespace or '@'.
   */
  ghost predicate MatchesEmailPattern(s: string) {
    exists at: nat, dot: nat :: SplitsAsEmail(s, at, dot)
  }

  /** `s` is `s[..at]`, '@', `s[at + 1..dot]`, '.', `s[dot + 1..]`, with three non-empty `[^\s@]` runs. */
  predicate SplitsAsEmail(s: string, at: nat, dot: nat) {
    && 0 < at && at + 1 < dot && dot + 1 < |s|
    && s[at] == '@' && s[dot] == '.'
    && AllPatternChars(s[..at]) && AllPatternChars(s[at + 1..dot]) && AllPatternChars(s[dot + 1..])
  }

  function CountChar(s: string, c: char): nat {
    if s == [] then 0 else CountChar(s[..|s| - 1], c) + (if s[|s| - 1] == c then 1 else 0)
  }

  /** The first position of `c` in `s`. */
  function IndexOf(s: string, c: char): (k: nat)
    requires c in s
    ensures k < |s| && s[k] == c
    ensures forall j :: 0 <= j < k ==> s[j] != c
  {
    if s[0] == c then 0 else 1 + IndexOf(s[1..], c)
  }

  predicate NoWhitespace(s: string) {
    forall i :: 0 <= i < |s| ==> !IsWhitespace(s[i])
  }

  /**
   The shape of an accepted address, checked directly: no whitespace, exactly one '@',
   something before it, and after it a '.' that is neither the first nor the last
   character of the domain part.
   */
  predicate EmailShape(s: string) {
    && NoWhitespace(s)
    && '@' in s
    && CountChar(s, '@') == 1
    && var at := IndexOf(s, '@');
       && 0 < at
       && at + 3 <= |s|
       && '.' in s[at + 2..|s| - 1]
  }

  lemma {:induction false} CountCharConcat(a: string, b: string, c: char)
    ensures CountChar(a + b, c) == CountChar(a, c) + CountChar(b, c)
    decreases |b|
  {
    if b == [] {
      assert a + b == a;
    } else {
      assert (a + b)[..|a + b| - 1] == a + b[..|b| - 1];
      CountCharConcat(a, b[..|b| - 1], c);
    }
  }

  lemma {:induction false} CountCharZero(s: string, c: char)
    ensures CountChar(s, c) == 0 <==> c !in s
  {
    if s != [] {
      CountCharZero(s[..|s| - 1], c);
      assert s == s[..|s| - 1] + [s[|s| - 1]];
    }
  }

  /** The count of `c` splits around position `i`. */
  lemma CountCharSplit(s: string, i: nat, c: char)
    requires i < |s|
    ensures CountChar(s, c) == CountChar(s[..i], c) + (if s[i] == c then 1 else 0) + CountChar(s[i + 1..], c)
  {
    var pre, mid, post := s[..i], [s[i]], s[i + 1..];
    assert s == pre + (mid + post);
    CountCharConcat(pre, mid + post, c);
    CountCharConcat(mid, post, c);
    assert mid[..0] == [];
  }

  /** A single '@' at `at` with none on either side: it is the only one and the first one. */
  lemma SoleAtSign(s: string, at: nat)
    requires at < |s| && s[at] == '@' && '@' !in s[..at] && '@' !in s[at + 1..]
    ensures CountChar(s, '@') == 1 && IndexOf(s, '@') == at
  {
    CountCharSplit(s, at, '@');
    CountCharZero(s[..at], '@');
    CountCharZero(s[at + 1..], '@');
  }

  /** When exactly one '@' occurs, nothing after the first one is an '@'. */
  lemma OnlyAtSign(s: string)
    requires '@' in s && CountChar(s, '@') == 1
    ensures '@' !in s[IndexOf(s, '@') + 1..]
  {
    var at := IndexOf(s, '@');
    CountCharSplit(s, at, '@');
    CountCharZero(s[..at], '@');
    CountCharZero(s[at + 1..], '@');
  }

  /** Every string matching the regular expression has the shape. */
  lemma PatternImpliesShape(s: string)
    requires MatchesEmailPattern(s)
    ensures EmailShape(s)
  {
    var at: nat, dot: nat :| SplitsAsEmail(s, at, dot);
    var left, mid, right := s[..at], s[at + 1..dot], s[dot + 1..];
    forall i | 0 <= i < |s| && i != at ensures PatternChar(s[i]) {
      if i < at {
        assert left[i] == s[i];
      } else if at < i < dot {
        assert mid[i - at - 1] == s[i];
      } else if dot < i {
        assert right[i - dot - 1] == s[i];
      }
    }
    var post := s[at + 1..];
    assert '@' !in post by {
      forall i | 0 <= i < |post| ensures post[i] != '@' {
        assert post[i] == s[at + 1 + i];
      }
    }
    SoleAtSign(s, at);
    assert s[at + 2..|s| - 1][dot - at - 2] == '.';
  }

  /** Every string with the shape matches the regular expression. */
  lemma ShapeImpliesPattern(s: string)
    requires EmailShape(s)
    ensures MatchesEmailPattern(s)
  {
    var at := IndexOf(s, '@');
    var inner := s[at + 2..|s| - 1];
    var k :| 0 <= k < |inner| && inner[k] == '.';
    var dot := at + 2 + k;
    assert s[dot] == '.';
    OnlyAtSign(s);
    var post := s[at + 1..];
    var left, mid, right := s[..at], s[at + 1..dot], s[dot + 1..];
    assert AllPatternChars(left) by {
      forall i | 0 <= i < |left| ensures PatternChar(left[i]) {
        assert left[i] == s[i];
      }
    }
    assert AllPatternChars(mid) by {
      forall i | 0 <= i < |mid| ensures PatternChar(mid[i]) {
        assert mid[i] == post[i];
      }
    }
    assert AllPatternChars(right) by {
      forall i | 0 <= i < |right| ensures PatternChar(right[i]) {
        assert right[i] == post[dot - at + i];
      }
    }
    assert SplitsAsEmail(s, at, dot);
  }

  /** The computable check accepts exactly the strings the regular expression accepts. */
  lemma EmailShapeIsPattern(s: string)
    ensures EmailShape(s) <==> MatchesEmailPattern(s)
  {
    if EmailShape(s) {
      ShapeImpliesPattern(s);
    }
    if MatchesEmailPattern(s) {
      PatternImpliesShape(s);
    }
  }

  datatype FormErrors = FormErrors(username: string, password: string, confirmPassword: string, email: string)

  datatype Validation = Validation(valid: bool, errors: FormErrors)

  /**
   `validateForm`: every check runs, each sets only its own error field, and the form is
   valid exactly when all four hold. Lengths are `String.prototype.length` values.
   */
  function ValidateForm(username: string, password: string, confirmPassword: string, email: string): (v: Validation)
    ensures v.valid <==>
      && Utf16Length(username) >= MinUsernameLength
      && Utf16Length(password) >= MinPasswordLength
      && password == confirmPassword
      && MatchesEmailPattern(email)
    ensures v.errors.username != "" <==> Utf16Length(username) < MinUsernameLength
    ensures v.errors.password != "" <==> Utf16Length(password) < MinPasswordLength
    ensures v.errors.confirmPassword != "" <==> password != confirmPassword
    ensures v.errors.email != "" <==> !MatchesEmailPattern(email)
  {
    EmailShapeIsPattern(email);
    var usernameError := if Utf16Length(username) < MinUsernameLength then UsernameError else "";
    var passwordError := if Utf16Length(password) < MinPasswordLength then PasswordError else "";
    var confirmError := if password != confirmPassword then ConfirmPasswordError else "";
    var emailError := if !EmailShape(email) then EmailError else "";
    var valid := usernameError == "" && passwordError == "" && confirmError == "" && emailError == "";
    Validation(valid, FormErrors(usernameError, passwordError, confirmError, emailError))
  }

  /** `handleRegister`'s guard: an invalid form issues no request; a valid one posts the fields as typed. */
  function SubmitRegistration(username: string, password: string, confirmPassword: string, email: string): (r: Option<RegisterRequest>)
    ensures r.Some? <==> ValidateForm(username, password, confirmPassword, email).valid
    ensures r.Some? ==> r.value == RegisterRequest(username, email, password)
    ensures r.Some? ==> Utf16Length(r.value.name) >= MinUsernameLength && Utf16Length(r.value.password) >= MinPasswordLength
  {
    if !ValidateForm(username, password, confirmPassword, email).valid then None
    else Some(RegisterRequest(username, email, password))
  }

  /** The username bound is inclusive: three characters fail that check, four pass it. */
  lemma UsernameBoundaryIsInclusive(password: string, confirmPassword: string, email: string)
    ensures ValidateForm("abc", password, confirmPassword, email).errors.username == UsernameError
    ensures ValidateForm("abcd", password, confirmPassword, email).errors.username == ""
  {
    assert Utf16Length("abc") == 3;
    assert Utf16Length("abcd") == 4;
  }

  /** A confirmation that differs fails validation even when both passwords are long enough. */
  lemma MismatchFails(username: string, password: string, confirmPassword: string, email: string)
    requires Utf16Length(password) >= MinPasswordLength && Utf16Length(confirmPassword) >= MinPasswordLength
    requires password != confirmPassword
    ensures !ValidateForm(username, password, confirmPassword, email).valid
    ensures ValidateForm(username, password, confirmPassword, email).errors.confirmPassword == ConfirmPasswordError
    ensures ValidateForm(username, password, confirmPassword, email).errors.password == ""
  {
  }

  /** An accepted address has exactly one '@', no whitespace, and an inner '.' in its domain part. */
  lemma AcceptedEmailShape(s: string)
    requires MatchesEmailPattern(s)
    ensures NoWhitespace(s) && CountChar(s, '@') == 1
    ensures exists at, k :: 0 <= at < |s| && s[at] == '@' && at + 1 < k < |s| - 1 && s[k] == '.'
  {
    var at: nat, dot: nat :| SplitsAsEmail(s, at, dot);
    PatternImpliesShape(s);
    assert 0 <= at < |s| && s[at] == '@' && at + 1 < dot < |s| - 1 && s[dot] == '.';
  }

  /** No check short-circuits another: a form failing all four reports all four messages. */
  lemma AllFailuresReported(username: string, password: string, confirmPassword: string, email: string)
    requires Utf16Length(username) < MinUsernameLength && Utf16Length(password) < MinPasswordLength
    requires password != confirmPassword && !MatchesEmailPattern(email)
    ensures ValidateForm(username, password, confirmPassword, email).errors ==
      FormErrors(UsernameError, PasswordError, ConfirmPasswordError, EmailError)
  {
    EmailShapeIsPattern(email);
  }

  /** A plain address is accepted. */
  lemma EmailExampleAccepted()
    ensures MatchesEmailPattern("x@x.com")
  {
    var good := "x@x.com";
    assert good[..1] == "x" && good[2..3] == "x" && good[4..] == "com";
    assert AllPatternChars(good[..1]) && AllPatternChars(good[2..3]) && AllPatternChars(good[4..]);
    assert SplitsAsEmail(good, 1, 3);
  }

  /** An address without a '.' after the '@', or with two '@', is rejected. */
  lemma EmailExamplesRejected()
    ensures !MatchesEmailPattern("x@com")
    ensures !MatchesEmailPattern("a@b@c.d")
  {
    var noDot := "x@com";
    EmailShapeIsPattern(noDot);
    assert IndexOf(noDot, '@') == 1;
    assert noDot[3..4] == "o";
    var twoAt := "a@b@c.d";
    if MatchesEmailPattern(twoAt) {
      AcceptedEmailShape(twoAt);
      assert twoAt == "a@" + "b@" + "c.d";
      CountCharConcat("a@" + "b@", "c.d", '@');
      CountCharConcat("a@", "b@", '@');
      CountCharZero("c.d", '@');
      assert false;
    }
  }
}

=== FILE: user_controller.dfy ===
/**
 The administrative user endpoints (`getAllUsers`, `getUserById`, `createUser`,
 `updateUser`, `deleteUser`) as transitions on the users table: each takes the table
 and the request and returns the HTTP status, the JSON body and the new table.
 */
module UserController {
  import opened Wrappers
  import opened JsText
  import opened UserModel
  import opened Http

  const NotFoundMessage := "用户未找到"
  const IncompleteMessage := "请提供完整的用户信息"
  const ServerErrorMessage := "服务器错误"
  const CreateFailedMessage := "创建用户失败"
  const UpdateFailedMessage := "更新用户失败"
  const DeleteFailedMessage := "删除用户失败"
  const DeletedMessage := "用户已删除"

  /** A JSON response body: a list of rows, one row, or a message. */
  datatype Body = UserList(users: set<User>) | OneUser(user: User) | Message(text: string)

  /** What a handler produces: the status it sends, the body, and the table afterwards. */
  datatype Reply = Reply(status: int, body: Body, db: Db)

  /** The body of `POST /users`; absent JSON fields are `None`. */
  datatype CreateRequest = CreateRequest(name: Option<string>, email: Option<string>, password: Option<string>, permissions: Option<Permissions>)

  /** The body of `PUT /users/:id`. */
  datatype UpdateRequest = UpdateRequest(name: Option<string>, email: Option<string>, permissions: Option<Permissions>)

  /** `supplied || current` for a string field. */
  function StringOr(supplied: Option<string>, current: string): string {
    if Truthy(supplied) then supplied.value else current
  }

  /** `supplied || current` for the permissions object: any supplied object is truthy. */
  function PermissionsOr(supplied: Option<Permissions>, current: Permissions): Permissions {
    match supplied
    case Some(p) => p
    case None => current
  }

  /** The partial-update rule: name, e-mail and permissions are replaced only by truthy values. */
  function Merge(current: User, req: UpdateRequest): (u: User)
    ensures u.id == current.id && u.password == current.password
    ensures Truthy(req.name) ==> u.name == req.name.value
    ensures !Truthy(req.name) ==> u.name == current.name
    ensures Truthy(req.email) ==> u.email == req.email.value
    ensures !Truthy(req.email) ==> u.email == current.email
    ensures req.permissions.Some? ==> u.permissions == req.permissions.value
    ensures req.permissions.None? ==> u.permissions == current.permissions
  {
    current.(name := StringOr(req.name, current.name),
             email := StringOr(req.email, current.email),
             permissions := PermissionsOr(req.permissions, current.permissions))
  }

  /** `GET /users`: every row of the table, password column included. */
  function GetAllUsers(db: Db): (r: Reply)
    ensures r.db == db
    ensures r.status == StatusOk <==> db.online
    ensures r.status == StatusOk ==> r.body.UserList?
    ensures r.status == StatusOk ==>
      forall u :: u in r.body.users <==> exists k :: k in db.rows && db.rows[k] == u
    ensures r.status != StatusOk ==> r.status == StatusServerError && r.body == Message(ServerErrorMessage)
  {
    match FindAll(db)
    case Ok(users) => Reply(StatusOk, UserList(users), db)
    case Err(_) => Reply(StatusServerError, Message(ServerErrorMessage), db)
  }

  /** `GET /users/:id`. */
  function GetUserById(db: Db, id: int): (r: Reply)
    ensures r.db == db
    ensures db.online && id !in db.rows ==> r.status == StatusNotFound && r.body == Message(NotFoundMessage)
    ensures r.status == StatusOk <==> db.online && id in db.rows
    ensures r.status == StatusOk ==> r.body == OneUser(db.rows[id])
    ensures !db.online ==> r.status == StatusServerError
  {
    match FindByPk(db, id)
    case Err(_) => Reply(StatusServerError, Message(ServerErrorMessage), db)
    case Ok(None) => Reply(StatusNotFound, Message(NotFoundMessage), db)
    case Ok(Some(u)) => Reply(StatusOk, OneUser(u), db)
  }

  /**
   `POST /users`: name, e-mail and password must all be truthy (checked before the table is
   touched); the password is stored unhashed, as its column holds it; omitted permissions
   take the default. The response is the row as stored.
   */
  function CreateUser(db: Db, req: CreateRequest): (r: Reply)
    ensures !(Truthy(req.name) && Truthy(req.email) && Truthy(req.password)) ==>
      r.status == StatusBadRequest && r.body == Message(IncompleteMessage) && r.db == db
    ensures r.status == StatusCreated <==>
      && Truthy(req.name) && Truthy(req.email) && Truthy(req.password) && db.online
      && ColumnAccepts(req.name.value) && ColumnAccepts(req.email.value) && ColumnAccepts(req.password.value)
      && !EmailTaken(db.rows, ColumnValue(req.email.value))
    ensures Truthy(req.name) && Truthy(req.email) && Truthy(req.password) && r.status != StatusCreated ==>
      r.status == StatusServerError && r.body == Message(CreateFailedMessage)
    ensures Truthy(req.name) && Truthy(req.email) && Truthy(req.password) && !db.online ==> r.status == StatusServerError
    ensures (Truthy(req.name) && Truthy(req.email) && Truthy(req.password) && db.online
             && ColumnAccepts(req.email.value) && EmailTaken(db.rows, ColumnValue(req.email.value))) ==>
      r.status == StatusServerError
    ensures r.status != StatusCreated ==> r.db == db
    ensures r.status == StatusCreated ==>
      && r.body.OneUser?
      && var u := r.body.user;
      && r.db.rows == db.rows[u.id := u]
      && u.name == ColumnValue(req.name.value) && u.email == ColumnValue(req.email.value)
      && u.password == ColumnValue(req.password.value)
      && u.permissions == (if req.permissions.Some? then req.permissions.value else DefaultPermissions)
    ensures r.status == StatusCreated && Valid(db) ==> r.body.user.id !in db.rows && |r.db.rows| == |db.rows| + 1
  {
    if !Truthy(req.name) || !Truthy(req.email) || !Truthy(req.password) then
      Reply(StatusBadRequest, Message(IncompleteMessage), db)
    else
      match Create(db, req.name.value, req.email.value, req.password.value, req.permissions)
      case Ok((db', u)) => Reply(StatusCreated, OneUser(u), db')
      case Err(_) => Reply(StatusServerError, Message(CreateFailedMessage), db)
  }

  /**
   `PUT /users/:id`: an absent id is 404; otherwise the row is merged with the request and
   saved. Only that row can change, and its id and password never do. The response is the
   merged instance, which the save does not reload, so it shows a value before the column
   cut it.
   */
  function UpdateUser(db: Db, id: int, req: UpdateRequest): (r: Reply)
    ensures db.online && id !in db.rows ==> r.status == StatusNotFound && r.body == Message(NotFoundMessage)
    ensures r.status != StatusOk ==> r.db == db
    ensures r.db.rows.Keys == db.rows.Keys
    ensures forall k :: k in db.rows && k != id ==> r.db.rows[k] == db.rows[k]
    ensures r.status == StatusOk ==> id in db.rows && r.body == OneUser(Merge(db.rows[id], req))
    ensures r.status == StatusOk ==>
      RowAccepts(Merge(db.rows[id], req)) && r.db.rows[id] == StoredRow(Merge(db.rows[id], req))
    ensures !db.online ==> r.status == StatusServerError && r.body == Message(UpdateFailedMessage)
    ensures r.status == StatusOk <==>
      && db.online && id in db.rows
      && RowAccepts(Merge(db.rows[id], req))
      && !(exists k :: k in db.rows && k != id && db.rows[k].email == ColumnValue(Merge(db.rows[id], req).email))
    ensures db.online && id in db.rows && r.status != StatusOk ==>
      r.status == StatusServerError && r.body == Message(UpdateFailedMessage)
    ensures Valid(db) && db.online && id in db.rows && !Truthy(req.email) && RowAccepts(Merge(db.rows[id], req)) ==>
      r.status == StatusOk
  {
    match FindByPk(db, id)
    case Err(_) => Reply(StatusServerError, Message(UpdateFailedMessage), db)
    case Ok(None) => Reply(StatusNotFound, Message(NotFoundMessage), db)
    case Ok(Some(current)) =>
      var u := Merge(current, req);
      match Save(db, id, u)
      case Ok(db') => Reply(StatusOk, OneUser(u), db')
      case Err(_) => Reply(StatusServerError, Message(UpdateFailedMessage), db)
  }

  /** `DELETE /users/:id`: a hard delete of exactly that row; an absent id is 404. */
  function DeleteUser(db: Db, id: int): (r: Reply)
    ensures db.online && id !in db.rows ==> r.status == StatusNotFound && r.db == db
    ensures r.status == StatusOk <==> db.online && id in db.rows
    ensures r.status == StatusOk ==> r.db.rows == db.rows - {id} && r.body == Message(DeletedMessage)
    ensures !db.online ==> r.status == StatusServerError && r.body == Message(DeleteFailedMessage)
    ensures r.status != StatusOk ==> r.db == db
  {
    match FindByPk(db, id)
    case Err(_) => Reply(StatusServerError, Message(DeleteFailedMessage), db)
    case Ok(None) => Reply(StatusNotFound, Message(NotFoundMessage), db)
    case Ok(Some(_)) =>
      match Destroy(db, id)
      case Ok(db') =>
        assert db'.rows == db.rows - {id};
        Reply(StatusOk, Message(DeletedMessage), db')
      case Err(_) => Reply(StatusServerError, Message(DeleteFailedMessage), db)
  }

  /** Every handler keeps the table invariant, in particular e-mail uniqueness. */
  lemma HandlersPreserveValid(db: Db, id: int, creq: CreateRequest, ureq: UpdateRequest)
    requires Valid(db)
    ensures Valid(GetAllUsers(db).db) && Valid(GetUserById(db, id).db)
    ensures Valid(CreateUser(db, creq).db)
    ensures Valid(UpdateUser(db, id, ureq).db)
    ensures Valid(DeleteUser(db, id).db)
  {
    if db.online && id in db.rows {
      var u := Merge(db.rows[id], ureq);
      if Save(db, id, u).Ok? {
        assert UpdateUser(db, id, ureq).db == Save(db, id, u).value;
      }
    }
  }

  /** Updating with only a name changes the name and nothing else. */
  lemma UpdateOnlyNameKeepsTheRest(db: Db, id: int, name: string)
    requires Valid(db) && db.online && id in db.rows && name != "" && ColumnAccepts(name)
    ensures var r := UpdateUser(db, id, UpdateRequest(Some(name), None, None));
      && r.status == StatusOk
      && r.db.rows[id] == db.rows[id].(name := ColumnValue(name))
  {
  }

  /** An update that supplies nothing truthy rewrites the row with itself. */
  lemma EmptyUpdateIsIdentity(db: Db, id: int, req: UpdateRequest)
    requires Valid(db) && db.online && id in db.rows
    requires !Truthy(req.name) && !Truthy(req.email) && req.permissions.None?
    ensures var r := UpdateUser(db, id, req);
      r.status == StatusOk && r.db.rows == db.rows
  {
  }

  /** A created row is what a later lookup of its id returns. */
  lemma CreateThenGet(db: Db, req: CreateRequest)
    requires Valid(db)
    requires CreateUser(db, req).status == StatusCreated
    ensures var c := CreateUser(db, req);
      GetUserById(c.db, c.body.user.id) == Reply(StatusOk, OneUser(c.body.user), c.db)
  {
  }

  /** Deleting the row just created restores the table's rows. */
  lemma CreateThenDeleteRestores(db: Db, req: CreateRequest)
    requires Valid(db)
    requires CreateUser(db, req).status == StatusCreated
    ensures var c := CreateUser(db, req);
      DeleteUser(c.db, c.body.user.id).db.rows == db.rows
  {
    var c := CreateUser(db, req);
    var u := c.body.user;
    assert c.db.online;
    assert c.db.rows - {u.id} == db.rows;
  }

  /** After a delete the id is gone: looking it up again is 404, deleting it again is 404. */
  lemma DeleteThenGetIsNotFound(db: Db, id: int)
    requires DeleteUser(db, id).status == StatusOk
    ensures GetUserById(DeleteUser(db, id).db, id).status == StatusNotFound
    ensures DeleteUser(DeleteUser(db, id).db, id).status == StatusNotFound
  {
    var d := DeleteUser(db, id).db;
    assert d == db.(rows := db.rows - {id});
  }

  /** Deleting an absent id changes no row and no row count. */
  lemma DeleteAbsentKeepsCount(db: Db, id: int)
    requires db.online && id !in db.rows
    ensures DeleteUser(db, id).status == StatusNotFound
    ensures |DeleteUser(db, id).db.rows| == |db.rows|
  {
  }
}

=== FILE: user_management.dfy ===
/**
 The user-management screen's decisions: how a permissions bag is shown in the table,
 the edit dialog's state and its transitions (open, close, edit the name, toggle a
 flag), and which request `Save` issues.
 */
module UserManagement {
  import opened Wrappers
  import opened JsText
  import opened UserModel

  const ApiUrl := "/api/users"
  const ArticleLabel := "文章管理"
  const CategoryLabel := "栏目管理"
  const Separator := ", "
  const EmptyNameMessage := "用户名不能为空"

  /** `arr.join(sep)`. */
  function Join(parts: seq<string>, sep: string): string {
    if parts == [] then ""
    else if |parts| == 1 then parts[0]
    else parts[0] + sep + Join(parts[1..], sep)
  }

  /** The labels of the set flags, article management first. */
  function PermissionLabels(p: Permissions): seq<string> {
    (if p.articleManagement then [ArticleLabel] else []) + (if p.categoryManagement then [CategoryLabel] else [])
  }

  /** `formatPermissions`: the labels of the set flags joined with ", ". */
  function FormatPermissions(p: Permissions): string {
    Join(PermissionLabels(p), Separator)
  }

  /** Reads a displayed permissions cell back into flags. */
  function ParsePermissions(s: string): Permissions {
    Permissions(s == ArticleLabel || s == ArticleLabel + Separator + CategoryLabel,
                s == CategoryLabel || s == ArticleLabel + Separator + CategoryLabel)
  }

  /** The four possible cells, always in the same order. */
  lemma FormatPermissionsCases(p: Permissions)
    ensures !p.articleManagement && !p.categoryManagement ==> FormatPermissions(p) == ""
    ensures p.articleManagement && !p.categoryManagement ==> FormatPermissions(p) == ArticleLabel
    ensures !p.articleManagement && p.categoryManagement ==> FormatPermissions(p) == CategoryLabel
    ensures p.articleManagement && p.categoryManagement ==> FormatPermissions(p) == ArticleLabel + Separator + CategoryLabel
  {
    if p.articleManagement && p.categoryManagement {
      var labels := PermissionLabels(p);
      assert labels == [ArticleLabel, CategoryLabel];
      assert labels[1..] == [CategoryLabel];
      assert Join(labels[1..], Separator) == CategoryLabel;
      assert Join(labels, Separator) == ArticleLabel + Separator + Join(labels[1..], Separator);
    }
  }

  /** The cell determines the flags: distinct permissions are never shown the same way. */
  lemma FormatPermissionsRoundTrip(p: Permissions)
    ensures ParsePermissions(FormatPermissions(p)) == p
  {
    FormatPermissionsCases(p);
    assert |ArticleLabel + Separator + CategoryLabel| == 10;
    assert ArticleLabel != CategoryLabel by {
      assert ArticleLabel[0] != CategoryLabel[0];
    }
  }

  /** The user being edited: `id` is absent for a new user. */
  datatype Selection = Selection(id: Option<int>, name: string)

  /** The dialog's state: whether it is open, the selected user, and the edited flags. */
  datatype Dialog = Dialog(open: bool, selected: Option<Selection>, permissions: Permissions)

  const InitialDialog := Dialog(false, None, DefaultPermissions)

  /** The dialog is open exactly when a user is selected. */
  predicate Consistent(d: Dialog) {
    d.open <==> d.selected.Some?
  }

  /** `handleOpenDialog(user)`: edit an existing user, or start a blank one with no permissions. */
  function OpenDialog(d: Dialog, user: Option<User>): (d': Dialog)
    ensures d'.open && d'.selected.Some?
    ensures user.None? ==> d'.selected == Some(Selection(None, "")) && d'.permissions == DefaultPermissions
    ensures user.Some? ==> d'.selected.value.id == Some(user.value.id) && d'.selected.value.name == user.value.name
    ensures user.Some? ==>
      && d'.permissions.articleManagement == user.value.permissions.articleManagement
      && d'.permissions.categoryManagement == user.value.permissions.categoryManagement
  {
    match user
    case Some(u) =>
      Dialog(true, Some(Selection(Some(u.id), u.name)),
             Permissions(u.permissions.articleManagement, u.permissions.categoryManagement))
    case None => Dialog(true, Some(Selection(None, "")), DefaultPermissions)
  }

  /** `handleCloseDialog`: drop the selection and close; the edited flags stay as they were. */
  function CloseDialog(d: Dialog): (d': Dialog)
    ensures !d'.open && d'.selected.None? && d'.permissions == d.permissions
  {
    d.(open := false, selected := None)
  }

  /** The name field's `onChange`: keep the selected user, replace its name. */
  function EditName(d: Dialog, name: string): (d': Dialog)
    ensures d'.selected.Some? && d'.selected.value.name == name
    ensures d.selected.Some? ==> d'.selected.value.id == d.selected.value.id
    ensures d'.open == d.open && d'.permissions == d.permissions
  {
    var id := match d.selected case Some(s) => s.id case None => None;
    d.(selected := Some(Selection(id, name)))
  }

  /** The two permission checkboxes, by their `name` attribute. */
  datatype Flag = ArticleManagement | CategoryManagement

  /** `handlePermissionChange`: set the named flag to the checkbox's state. */
  function TogglePermission(d: Dialog, flag: Flag, checked: bool): (d': Dialog)
    ensures d'.open == d.open && d'.selected == d.selected
    ensures flag == ArticleManagement ==>
      d'.permissions.articleManagement == checked && d'.permissions.categoryManagement == d.permissions.categoryManagement
    ensures flag == CategoryManagement ==>
      d'.permissions.categoryManagement == checked && d'.permissions.articleManagement == d.permissions.articleManagement
  {
    match flag
    case ArticleManagement => d.(permissions := d.permissions.(articleManagement := checked))
    case CategoryManagement => d.(permissions := d.permissions.(categoryManagement := checked))
  }

  /** The dialog events, as the screen offers them: the name and the checkboxes only while open. */
  datatype Event = Open(user: Option<User>) | Close | Name(name: string) | Toggle(flag: Flag, checked: bool)

  function Step(d: Dialog, e: Event): Dialog {
    match e
    case Open(u) => OpenDialog(d, u)
    case Close => CloseDialog(d)
    case Name(n) => if d.open then EditName(d, n) else d
    case Toggle(f, c) => if d.open then TogglePermission(d, f, c) else d
  }

  /** Every event keeps the dialog open exactly while a user is selected, so `Save` always has one. */
  lemma StepKeepsConsistent(d: Dialog, e: Event)
    requires Consistent(d)
    ensures Consistent(Step(d, e))
  {
  }

  /** The dialog after a sequence of events, starting from the screen's initial state. */
  function Run(d: Dialog, events: seq<Event>): Dialog
    decreases |events|
  {
    if events == [] then d else Run(Step(d, events[0]), events[1..])
  }

  lemma {:induction false} RunKeepsConsistent(d: Dialog, events: seq<Event>)
    requires Consistent(d)
    ensures Consistent(Run(d, events))
    decreases |events|
  {
    if events != [] {
      StepKeepsConsistent(d, events[0]);
      RunKeepsConsistent(Step(d, events[0]), events[1..]);
    }
  }

  /** Whatever the user does from the initial screen, the dialog is open exactly while a user is selected. */
  lemma ReachableDialogsAreConsistent(events: seq<Event>)
    ensures Consistent(Run(InitialDialog, events))
  {
    RunKeepsConsistent(InitialDialog, events);
  }

  /** The JSON body `Save` sends: the name and the current flags, nothing else. */
  datatype UserData = UserData(name: string, permissions: Permissions)

  datatype SaveRequest =
    | NoRequest(error: string)
    | Put(path: string, body: UserData)
    | Post(path: string, body: UserData)

  /** `if (selectedUser.id)`: a present, non-zero id. */
  predicate IdTruthy(s: Selection) {
    s.id.Some? && s.id.value != 0
  }

  /**
   `handleSaveUser`'s decision: an empty name sends nothing and reports an error; otherwise a
   user with an id is updated with PUT on its own path and any other is created with POST.
   */
  function SaveDecision(d: Dialog): (r: SaveRequest)
    requires d.selected.Some?
    ensures r.NoRequest? <==> d.selected.value.name == ""
    ensures r.NoRequest? ==> r.error == EmptyNameMessage
    ensures r.Put? <==> d.selected.value.name != "" && IdTruthy(d.selected.value)
    ensures !r.NoRequest? ==> r.body == UserData(d.selected.value.name, d.permissions) && r.body.name != ""
    ensures r.Post? ==> r.path == ApiUrl
    ensures r.Put? ==> r.path == ApiUrl + "/" + IntToString(d.selected.value.id.value)
  {
    var s := d.selected.value;
    if s.name == "" then NoRequest(EmptyNameMessage)
    else
      var body := UserData(s.name, d.permissions);
      if IdTruthy(s) then Put(ApiUrl + "/" + IntToString(s.id.value), body)
      else Post(ApiUrl, body)
  }

  /** The id in a PUT path reads back as the selected user's id. */
  lemma PutPathNamesSelectedUser(d: Dialog)
    requires d.selected.Some? && SaveDecision(d).Put?
    ensures var path := SaveDecision(d).path;
      |path| > |ApiUrl| + 1 && ParseInt(path[|ApiUrl| + 1..]) == d.selected.value.id
  {
    var id := d.selected.value.id.value;
    var path := SaveDecision(d).path;
    assert path[|ApiUrl| + 1..] == IntToString(id);
    IntToStringRoundTrip(id);
  }

  /** Opening the dialog for a new user and saving without typing a name sends nothing. */
  lemma NewUserWithoutNameSendsNothing(d: Dialog)
    ensures SaveDecision(OpenDialog(d, None)) == NoRequest(EmptyNameMessage)
  {
  }
}

=== FILE: user_model.dfy ===
/**
 The `users` table: the User record, its permissions bag, and the storage primitives
 the controllers call (find by primary key, find all, find by name, create, save,
 destroy). The table is an abstract map from primary key to row plus the next
 auto-increment value; `online` is false when the database cannot be reached, in
 which case every primitive fails.
 */
module UserModel {
  import opened Wrappers

  /** The permissions bag, a fixed-shape record of the two known flags. */
  datatype Permissions = Permissions(articleManagement: bool, categoryManagement: bool)

  /** The column default used when a row is created without permissions. */
  const DefaultPermissions := Permissions(false, false)

  /** A row; every column is non-null, which the types enforce. */
  datatype User = User(id: int, name: string, email: string, password: string, permissions: Permissions)

  datatype Db = Db(rows: map<int, User>, nextId: int, online: bool)

  /**
   Why a storage call failed: the database is unreachable, a string does not fit its
   column, or the e-mail unique index refused a row.
   */
  datatype StorageError = Unavailable | ValueTooLong | UniqueViolation

  /** `DataTypes.STRING` columns are `VARCHAR(255)`. */
  const MaxStringLength := 255

  /**
   Whether PostgreSQL accepts a value for a `VARCHAR(255)` column: a longer value is an
   error unless every character past the limit is a space.
   */
  predicate ColumnAccepts(s: string) {
    forall i :: MaxStringLength <= i < |s| ==> s[i] == ' '
  }

  /** The value the column holds after the assignment: an accepted value cut to the limit. */
  function ColumnValue(s: string): (v: string)
    requires ColumnAccepts(s)
    ensures |v| <= MaxStringLength && |v| <= |s| && v == s[..|v|]
    ensures forall i :: |v| <= i < |s| ==> s[i] == ' '
    ensures v == s <==> |s| <= MaxStringLength
    ensures |s| > MaxStringLength ==> |v| == MaxStringLength
  {
    if |s| <= MaxStringLength then s else s[..MaxStringLength]
  }

  /** Every string column of the row fits its `VARCHAR(255)`. */
  predicate FitsColumns(u: User) {
    |u.name| <= MaxStringLength && |u.email| <= MaxStringLength && |u.password| <= MaxStringLength
  }

  /** Every string column of the row is accepted by its `VARCHAR(255)`. */
  predicate RowAccepts(u: User) {
    ColumnAccepts(u.name) && ColumnAccepts(u.email) && ColumnAccepts(u.password)
  }

  /** The row as the table stores it: each string column cut to the limit. */
  function StoredRow(u: User): (s: User)
    requires RowAccepts(u)
    ensures FitsColumns(s)
    ensures s.id == u.id && s.permissions == u.permissions
    ensures s.name == ColumnValue(u.name) && s.email == ColumnValue(u.email) && s.password == ColumnValue(u.password)
    ensures s == u <==> FitsColumns(u)
  {
    u.(name := ColumnValue(u.name), email := ColumnValue(u.email), password := ColumnValue(u.password))
  }

  predicate EmailTaken(rows: map<int, User>, email: string) {
    exists k :: k in rows && rows[k].email == email
  }

  /** The unique index on `email`: no two rows share an address. */
  ghost predicate EmailsUnique(rows: map<int, User>) {
    forall j, k :: j in rows && k in rows && j != k ==> rows[j].email != rows[k].email
  }

  /**
   The table invariant: each row is stored under its own id, every id is below the next
   auto-increment value, every string fits its column, and e-mails are unique.
   */
  ghost predicate Valid(db: Db) {
    && (forall k :: k in db.rows ==> db.rows[k].id == k && k < db.nextId)
    && (forall k :: k in db.rows ==> FitsColumns(db.rows[k]))
    && EmailsUnique(db.rows)
  }

  /** `User.findByPk`. */
  function FindByPk(db: Db, id: int): (r: Result<Option<User>, StorageError>)
    ensures r.Err? <==> !db.online
    ensures r.Ok? ==> (r.value.Some? <==> id in db.rows)
    ensures r.Ok? && r.value.Some? ==> r.value.value == db.rows[id]
    ensures Valid(db) && r.Ok? && r.value.Some? ==> r.value.value.id == id
  {
    if !db.online then Err(Unavailable)
    else if id in db.rows then Ok(Some(db.rows[id]))
    else Ok(None)
  }

  /** Rows that carry their own keys are distinct, so there are as many as there are keys. */
  lemma {:induction false} KeyedRowsCount(rows: map<int, User>)
    ensures (forall k :: k in rows ==> rows[k].id == k) ==> |set k | k in rows :: rows[k]| == |rows|
    decreases |rows|
  {
    if rows != map[] && forall k :: k in rows ==> rows[k].id == k {
      var k :| k in rows;
      var rest := rows - {k};
      KeyedRowsCount(rest);
      var all := set j | j in rows :: rows[j];
      var others := set j | j in rest :: rest[j];
      forall u | u in all ensures u in others + {rows[k]} {
        var j :| j in rows && rows[j] == u;
        if j != k {
          assert j in rest && rest[j] == u;
        }
      }
      forall u | u in others + {rows[k]} ensures u in all {
        if u != rows[k] {
          var j :| j in rest && rest[j] == u;
          assert j in rows && rows[j] == u;
        }
      }
      assert all == others + {rows[k]};
      assert rows[k] !in others;
      assert |rows| == |rest| + 1 by {
        assert rows.Keys == rest.Keys + {k};
      }
    }
  }

  /** `User.findAll`: every row, in no particular order. */
  function FindAll(db: Db): (r: Result<set<User>, StorageError>)
    ensures r.Err? <==> !db.online
    ensures r.Ok? ==> forall u :: u in r.value <==> exists k :: k in db.rows && db.rows[k] == u
    ensures Valid(db) && r.Ok? ==> |r.value| == |db.rows|
  {
    if !db.online then Err(Unavailable)
    else
      KeyedRowsCount(db.rows);
      Ok(set k | k in db.rows :: db.rows[k])
  }

  /** Whether `User.findOne({ where: { name } })` finds a row. */
  function NameTaken(db: Db, name: string): (r: Result<bool, StorageError>)
    ensures r.Err? <==> !db.online
    ensures r.Ok? ==> (r.value <==> exists k :: k in db.rows && db.rows[k].name == name)
  {
    if !db.online then Err(Unavailable)
    else Ok(exists k :: k in db.rows && db.rows[k].name == name)
  }

  /**
   `User.create`: the row gets the next auto-increment id and the default permissions when
   none are given; each string is stored as its column holds it. It is refused when a
   string does not fit its column or the stored e-mail is already in use.
   */
  function Create(db: Db, name: string, email: string, password: string, permissions: Option<Permissions>): (r: Result<(Db, User), StorageError>)
    ensures r.Ok? <==>
      && db.online && ColumnAccepts(name) && ColumnAccepts(email) && ColumnAccepts(password)
      && !EmailTaken(db.rows, ColumnValue(email))
    ensures !db.online ==> r == Err(Unavailable)
    ensures db.online && ColumnAccepts(email) && EmailTaken(db.rows, ColumnValue(email)) ==> r.Err?
    ensures r.Ok? ==>
      var (db', u) := r.value;
      && u.name == ColumnValue(name) && u.email == ColumnValue(email) && u.password == ColumnValue(password)
      && u.permissions == (if permissions.Some? then permissions.value else DefaultPermissions)
      && db'.rows == db.rows[u.id := u] && db'.online
    ensures r.Ok? && Valid(db) ==> r.value.1.id !in db.rows && Valid(r.value.0)
  {
    var perms := match permissions case Some(p) => p case None => DefaultPermissions;
    var given := User(db.nextId, name, email, password, perms);
    if !db.online then Err(Unavailable)
    else if !RowAccepts(given) then Err(ValueTooLong)
    else
      var u := StoredRow(given);
      if EmailTaken(db.rows, u.email) then Err(UniqueViolation)
      else Ok((Db(db.rows[u.id := u], db.nextId + 1, true), u))
  }

  /**
   `user.save()` on the row loaded under `key`: the row is stored as its columns hold it;
   refused when a string does not fit its column or another row already has the stored
   e-mail.
   */
  function Save(db: Db, key: int, u: User): (r: Result<Db, StorageError>)
    requires key in db.rows
    ensures r.Ok? <==>
      && db.online && RowAccepts(u)
      && !(exists k :: k in db.rows && k != key && db.rows[k].email == ColumnValue(u.email))
    ensures r.Ok? ==> r.value.rows == db.rows[key := StoredRow(u)] && r.value.online
    ensures r.Ok? && Valid(db) && u.id == key ==> Valid(r.value)
  {
    if !db.online then Err(Unavailable)
    else if !RowAccepts(u) then Err(ValueTooLong)
    else
      var s := StoredRow(u);
      if exists k :: k in db.rows && k != key && db.rows[k].email == s.email then Err(UniqueViolation)
      else Ok(db.(rows := db.rows[key := s]))
  }

  /** `user.destroy()`: a hard delete of one row. */
  function Destroy(db: Db, id: int): (r: Result<Db, StorageError>)
    requires id in db.rows
    ensures r.Ok? <==> db.online
    ensures r.Ok? ==> r.value.rows.Keys == db.rows.Keys - {id}
    ensures r.Ok? ==> forall k :: k in r.value.rows ==> r.value.rows[k] == db.rows[k]
    ensures r.Ok? && Valid(db) ==> Valid(r.value)
  {
    if !db.online then Err(Unavailable)
    else Ok(db.(rows := db.rows - {id}))
  }
}

=== FILE: wrappers.dfy ===
/** Optional values and results with an error, shared by every module of the model. */
module Wrappers {

  /** A value that may be absent: a JavaScript `undefined` field, a missing row. */
  datatype Option<+T> = None | Some(value: T)

  /** The outcome of a step that may fail with an error value instead of a result. */
  datatype Result<+T, +E> = Ok(value: T) | Err(error: E)
}
